=== FILE: README.md ===
# gfast-token token lifecycle, modelled in Dafny

This project models the core of gfast-token, a Go library that issues JWT bearer
tokens and backs each one with a TTL-bearing cache record, so that validity and
revocation are decided on the server. It covers:

- the lifecycle engine of `gftoken/gftoken.go`: `GenerateToken`, `ParseToken`,
  `IsEffective` with its lazy refresh, `checkMultiLogin`, `IsNotExpired`,
  `RefreshToken`, `IsRefresh` and `diedLine`;
- the cache wrappers of `gftoken/cache.go` (`setCache`, `getCache`, `contains`,
  `removeCache`) over an abstract TTL key/value store;
- the exclusion-path matcher `AuthPath` of `gftoken/middleware.go`;
- the configuration builder of `gftoken/options.go` (defaults, then functional
  options applied left to right).

Three things the Go code takes from its environment are explicit here:

- **Clock.** Every operation takes `now`, the current Unix time in seconds, in place
  of `time.Now()`.
- **Codec.** The JWT library is a `Codec` value with a `sign` and a `parse`
  function. The lemmas assume `RoundTrips` (a signed token parses back to its
  claims), `SignsNonEmpty`, and where needed `AlwaysSigns`. Two issued tokens are
  distinct exactly when their claims differ (`Claims.DistinctClaimsDistinctTokens`).
  `parse` never checks time bounds: expiry is the engine's decision.
- **Store.** The cache backend is a `Store`: a map from key to value and deadline,
  plus a flag saying whether the backend answers. A lookup at `now` sees an entry
  only while its deadline lies ahead. A TTL of 0 means "never expires", the same
  sentinel the disk adapter applies (`adapter/dist.go:395-400`).

Modules: `Outcomes` (option/result/error types), `Claims` (`gftoken/claims.go`),
`Options`, `Cache`, `GfToken`, `Middleware`, and `Lifecycle` (properties that span
several engine calls).

Modelling assumptions for helpers the engine calls but whose code is not part of
this model:

- `addUserKeyCache` reads the user's list, with an absent list read as empty,
  appends the key and rewrites the list with the configured lifetime.
- `getUserKeyCache` reads the list. An absent key gives the empty list. A plain
  string value gives a one-element list, as Go's string-to-slice conversion would.
- `UpdateExpireUserKeyCache` re-applies the lifetime to a live list and leaves an
  absent one alone.
- The codec's refresh parses the old token, moves its expiry to `diedLine()` and
  signs it again.
- `RemoveToken` is `removeCache` on the token's key.
- A failed signing yields the empty token string next to the error.
- `getCache` renders a list value as a bracketed list, so it is never the empty
  string.

Choices the Go code makes that the model keeps:

- `IsEffective` runs the multi-login check before it looks at the cached claims'
  expiry.
- The multi-login check takes the user from the presented token. The list refresh
  takes it from the cached token.
- A refreshed token is written under the presented token's key and is never
  returned to the caller.
- `ExcludePaths` is not a field of the `GfToken` struct declared in `gftoken/gftoken.go`, so
  `AuthPath` takes the exclude list as a parameter.

## Model

| member | source | states |
|---|---|---|
| Options.NewGfTokenDefaults | gftoken/options.go:9-28 | with no options the configuration is ServerName "defaultGFToken", CacheKey "defaultGFToken_", Timeout 864000, MaxRefresh 432000, MultiLogin 0 |
| Options.Apply | gftoken/options.go:30-88 | each option writes exactly the fields it names, with its argument, and leaves every other field unchanged |
| Options.ApplyAllSnoc | gftoken/options.go:22-28 | options run left to right: an option appended to the list is applied after all earlier ones |
| Options.LaterOptionWins | gftoken/options.go:22-28 | every field ends up with the value of the last option that writes it, or the default when none does |
| Options.ApplyAll | gftoken/options.go:24-26 | a field that no option in the list writes keeps its starting value |
| Options.NewGfToken | gftoken/options.go:22-28 | every field of the new configuration holds the value of the last option that writes it, or its default when none does |
| Options.TimeoutAndMaxRefreshIsBoth | gftoken/options.go:42-59 | WithTimeoutAndMaxRefresh(t, r) equals WithTimeout(t) followed by WithMaxRefresh(r) |
| Cache.SetCache | gftoken/cache.go:13-15 | fails iff the backend fails; otherwise writes exactly the one entry key ↦ value with TTL Timeout+MaxRefresh, whatever the key, and keeps every other entry |
| Cache.SetCacheLifetime | gftoken/cache.go:13-15 | whatever the key, a stored value can be read for exactly Timeout+MaxRefresh seconds (forever for a TTL of 0), and no other key's reading changes |
| Cache.GetCache | gftoken/cache.go:17-27 | a backend fault yields ("", error); an absent key yields ("", no error); a present key yields its stored text |
| Cache.SetThenGetCache | gftoken/cache.go:13-27 | getCache after setCache returns the stored text for exactly the configured lifetime and ("", no error) after it; after removeCache it returns ("", no error) |
| Cache.Contains | gftoken/cache.go:8-11 | reports only the backend's boolean: true iff the backend answers and the key is live; a backend error is discarded |
| Cache.RemoveCache | gftoken/cache.go:29-32 | reports only the error; on success the key is gone, every other entry is kept, and the key reads as absent at every time |
| Cache.GetUserKeyCache | gftoken/gftoken.go:118-122 | the user's list; an absent list reads as empty, and a backend fault is an error |
| Cache.AddUserKeyCache | gftoken/gftoken.go:53-58 | the list becomes the old list with the session key appended, stored with the configured lifetime |
| Cache.UpdateExpireUserKeyCache | gftoken/gftoken.go:95 | fails iff the backend fails; keeps every key and every value; gives a live list the deadline now+Timeout+MaxRefresh and leaves an absent list alone |
| GfToken.DiedLine | gftoken/gftoken.go:32-34 | the expiry instant lies exactly Timeout+MaxRefresh seconds after now, so after now whenever that sum is positive |
| GfToken.GenerateToken | gftoken/gftoken.go:37-60 | a signing failure returns an empty token with the error and writes nothing; a backend fault after signing returns the signed token together with the error and writes nothing; success writes exactly one record key+token ↦ token with TTL Timeout+MaxRefresh, and appends key+token to the user's list only when MultiLogin > 0 |
| GfToken.IssuedTokenParses | gftoken/gftoken.go:32-44 | an issued token carries the user, NotBefore = now-10 and ExpiresAt = now+Timeout+MaxRefresh |
| GfToken.ParseToken | gftoken/gftoken.go:62-69 | a token the codec rejects gives the parse-failure error; an accepted token gives exactly the codec's claims |
| GfToken.IsNotExpired | gftoken/gftoken.go:139-153 | OK iff the token parses and now < ExpiresAt; Expired iff it parses and now >= ExpiresAt; Invalid iff it does not parse |
| GfToken.IsRefresh | gftoken/gftoken.go:163-175 | never true when MaxRefresh is 0; otherwise true iff the token parses and ExpiresAt-MaxRefresh < now < ExpiresAt, both strict |
| GfToken.RefreshWindowIsUnexpired | gftoken/gftoken.go:139-175 | a token inside its refresh window is reported unexpired |
| GfToken.RefreshToken | gftoken/gftoken.go:155-161 | an unparsable old token fails with the parse error; a parsable one gives Ok iff its claims with ExpiresAt moved to diedLine() sign, and then the token is that signature; otherwise the signing error |
| GfToken.RefreshExtendsExpiry | gftoken/gftoken.go:155-175 | the refreshed token keeps user and NotBefore, expires at now+Timeout+MaxRefresh, and that lies beyond the old expiry whenever the token was refreshable and Timeout >= 0 |
| GfToken.Scan | gftoken/gftoken.go:123-134 | the backward loop finds the key iff it is among the last j entries up to position i |
| GfToken.CheckMultiLogin | gftoken/gftoken.go:110-137 | accepts iff the presented token parses, the backend answers and key+token is among the last MultiLogin entries of that user's list (so an empty list rejects) |
| GfToken.MultiLoginLastIssued | gftoken/gftoken.go:123-134 | with distinct keys, exactly the last MultiLogin issued keys are in the window |
| GfToken.Refresh | gftoken/gftoken.go:88-104 | the refresh step creates no key when the presented record exists, as it always does inside IsEffective; it changes no value except the presented token's record, and touches nothing but that record and the user's list |
| GfToken.IsEffective | gftoken/gftoken.go:71-108 | true iff the record is live and non-empty, the multi-login check passes (when enabled) and the cached claims parse unexpired; a rejection, or any call with MaxRefresh 0, leaves the store unchanged; no key appears or vanishes and only the presented record's value can change |
| Middleware.AuthFrom | gftoken/middleware.go:49-69 | the loop over the exclude entries returns false iff some entry exempts the path |
| Middleware.AuthPath | gftoken/middleware.go:43-70 | a path needs authentication iff no exclude entry exempts it after one trailing '/' is trimmed; an empty exclude list requires authentication everywhere |
| Middleware.TrailingSlashIgnored | gftoken/middleware.go:44-47 | for a path not ending in '/', the path and the path plus '/' are judged alike |
| Middleware.DoubleSlashNotIgnored | gftoken/middleware.go:44-47 | only one '/' is trimmed: with entry "/a", the paths "/a" and "/a//" are judged differently |
| Middleware.WildcardEntryExemptsPrefixes | gftoken/middleware.go:52-57 | an entry ending in the wildcard exempts exactly the paths whose trimmed form starts with the entry minus the wildcard |
| Middleware.WildcardExemptsExtensions | gftoken/middleware.go:44-57 | a wildcard entry exempts every extension of its stem, other than the empty extension of a stem ending in '/' (that path loses its trailing '/' before the prefix test) |
| Middleware.RootWildcardExemptsAll | gftoken/middleware.go:52-57 | the bare wildcard entry exempts every path |
| Middleware.ExactEntryExemptsOnlyItself | gftoken/middleware.go:58-66 | a non-wildcard entry exempts a path iff both are equal after one trailing '/' is trimmed from each |
| Middleware.AuthPathOrderIndependent | gftoken/middleware.go:49-69 | the verdict depends only on which entries are present, not on their order |
| Middleware.AuthPathMonotone | gftoken/middleware.go:49-69 | adding an exclude entry can turn true into false but never false into true |
| Lifecycle.IssueWrites | gftoken/gftoken.go:48-58 | after a successful issue with multi-login on, the record holds the token, the list holds the old list plus the new key, both with the configured lifetime, and every other entry is unchanged; stated for a token that differs from the user key, because token records and user lists share one key space |
| Lifecycle.IssueThenEffective | gftoken/gftoken.go:37-107 | a freshly issued token is effective at any time before its lifetime ends; with multi-login on, provided the token differs from the user key (shared key space) |
| Lifecycle.RevokeThenNotEffective | gftoken/cache.go:29-32 | after its record is removed a token is never effective, even though its claims may still be valid |
| Lifecycle.ExpiredOrInvalidRejected | gftoken/gftoken.go:86-107 | a cached token that is expired or unparsable is rejected and nothing is written or removed, even if the store still returns it |
| Lifecycle.RefreshRewritesPresentedRecord | gftoken/gftoken.go:88-98 | a refresh rewrites only the presented key's record, with a token expiring a full lifetime from now, later than before when Timeout >= 0, and re-applies the list's lifetime; no record appears under the new token and list contents are unchanged |
| Lifecycle.PresentOnce | gftoken/gftoken.go:86-105 | for Timeout >= 0 (the whole statement): one accepted presentation keeps the record outliving its claims and never moves the cached expiry back; a refresh sets it to now+Timeout+MaxRefresh and only renews the deadline of live entries other than the presented record |
| Lifecycle.RepeatedPresentationStaysEffective | gftoken/gftoken.go:82-105 | presenting the same token at t1 and again at t2, with t1 <= t2 before the cached expiry, is effective both times and the cached expiry never goes down; with the multi-login limit on, the list contents are untouched so the window check still passes |
| Lifecycle.IssueEstablishesRecordOutlives | gftoken/gftoken.go:37-58 | a freshly issued record lives exactly as long as its claims (expiry now+Timeout+MaxRefresh); with multi-login on, provided the token differs from the user key |
| Lifecycle.WorkedExample | gftoken/gftoken.go:86-105 | with Timeout 20 and MaxRefresh 10: issued at 0 the token expires at 30; at 25 it is effective and its record now holds a token expiring at 55 and itself expires at 55; at 31 the original string is still effective |
| Lifecycle.QuotaTwoKeepsLastTwo | gftoken/gftoken.go:111-137 | with MultiLogin 2, after three logins of one user at three different seconds the first token is rejected and the two later ones are effective, provided each token differs from the user key (shared key space) |

## Left out

- Shared key space: session records live under CacheKey+token and user lists under CacheKey+UserKey, so a token string equal to a user key has its record overwritten by that user's list at issue (gftoken/gftoken.go:48, 54). The issue lemmas with multi-login on (Lifecycle.IssueWrites, Lifecycle.IssueThenEffective, Lifecycle.QuotaTwoKeepsLastTwo, Lifecycle.IssueEstablishesRecordOutlives) are stated only for tokens that differ from the user key.
- Integer widths: Timeout, MaxRefresh and Unix times are unbounded integers. In Go
  they are int64, and `time.Duration(Timeout+MaxRefresh)*time.Second` in `diedLine`
  and `setCache` wraps once Timeout+MaxRefresh exceeds about 9.2e9 seconds. That
  wrap-around is not modelled. Neither is the int64 overflow of
  `now - ExpiresAt` in `IsNotExpired`.
- Each call reads the clock as one `now`: the two `time.Now()` readings in
  `GenerateToken`, and in `IsEffective` the readings in `IsNotExpired`
  (gftoken/gftoken.go:142), in `IsRefresh` (gftoken/gftoken.go:169) and through
  `diedLine` (gftoken/gftoken.go:33) inside `RefreshToken`. Within a call the clock
  does not move.
- Same-second logins: the claims hold only the user and two second-granular time
  bounds (gftoken/gftoken.go:38-44), so two logins of one user in the same second
  sign the same token, and with multi-login on the user's list then holds that key
  twice; Lifecycle.QuotaTwoKeepsLastTwo is stated for logins at distinct seconds
  for this reason.
- A backend fault is a store-wide flag, so a fault part-way through a request (the
  record written, then the list append failing) is not modelled.
- Lifecycle.RepeatedPresentationStaysEffective: assumes the record outlives its claims (RecordOutlivesClaims), which IssueEstablishesRecordOutlives proves for a freshly issued token and PresentOnce proves every presentation preserves; it is stated for Timeout >= 0 only, because a negative timeout makes a refresh move the expiry back; with the multi-login limit on it also needs the user's list to be live at the second call, because the list's own TTL is independent of the token's.
- Logging, `context.Context`, and concurrent requests: every call is atomic.
- JWT signing and verification (jwt-go and the `JwtSign` type, whose code is not
  part of this model) are the abstract `Codec`. The only JWT claims modelled are the
  user and the two time bounds. The codec's own expiry or not-before checks are not
  modelled.
- `WithGCache`, `WithGRedis` and `WithUserJwt` (`gftoken/options.go:61-82`) are
  left out: they build the backend and the codec, including a Redis connection and
  a `panic`. So the configuration has no `cache` or `userJwt` field.
- That engines built without a cache option share the default `cache` object is
  expressed only by passing the same `Store` to both. `NewGfToken` copying the
  defaults needs no proof, because `DefaultConfig` is an immutable constant.
- `Middleware`, `authMiddleware`, `gftoken/group.go` and `gftoken/utils.go` are
  left out: they parse HTTP requests and write JSON responses.
- `adapter/dist.go` (the Badger disk cache) is left out. Only its TTL-0 sentinel is
  kept, as the store's "never expires" deadline.
- gcache's deletion of a key set with a negative TTL becomes an entry that is
  already dead: every read treats the two the same.
- Strings are sequences of characters, not bytes. `AuthPath` only compares
  characters and inspects '/' and '*', so its results are the same.

=== FILE: cache.dfy ===
/** The TTL cache the engine writes through (gftoken/cache.go), over an abstract
    key/value backend, plus the per-user session-key list kept in it. */
module Cache {
  import opened Outcomes
  import opened Options

  /** A cached value: a token string, or a user's list of session keys. */
  datatype Value = Text(s: string) | Keys(list: seq<string>)

  datatype Deadline = Never | At(t: int)

  datatype Entry = Entry(value: Value, deadline: Deadline)

  /** The backend: its entries and whether it currently answers at all. */
  datatype Store = Store(entries: map<string, Entry>, available: bool)

  /** A TTL of zero means "never expires"; any other TTL ends `ttl` seconds after
      `now` (so a negative TTL yields an entry that is already dead). */
  function DeadlineAfter(ttl: int, now: int): Deadline {
    if ttl == 0 then Never else At(now + ttl)
  }

  predicate Live(e: Entry, now: int) {
    match e.deadline
    case Never => true
    case At(t) => now < t
  }

  /** The backend read: an entry is visible only while its deadline is ahead. */
  function Lookup(st: Store, key: string, now: int): Option<Value> {
    if key in st.entries && Live(st.entries[key], now) then Some(st.entries[key].value) else None
  }

  /** The text a cached value converts to; a key list renders as a bracketed list. */
  function Render(v: Value): (s: string)
    ensures v.Text? ==> s == v.s
    ensures v.Keys? ==> s != []
  {
    match v
    case Text(s) => s
    case Keys(list) => "[" + JoinQuoted(list) + "]"
  }

  function JoinQuoted(list: seq<string>): string
    decreases |list|
  {
    if list == [] then ""
    else if |list| == 1 then "\"" + list[0] + "\""
    else "\"" + list[0] + "\"," + JoinQuoted(list[1..])
  }

  /** Lifetime of every record the engine writes: timeout plus refresh window. */
  function Lifetime(cfg: Config): int {
    cfg.timeout + cfg.maxRefresh
  }

  /** setCache: stores `value` under `key` with the configured lifetime. */
  function SetCache(cfg: Config, st: Store, key: string, value: Value, now: int): (r: Result<Store>)
    ensures r.Err? <==> !st.available
    ensures r.Err? ==> r.error == StoreUnavailable
    ensures r.Ok? ==> r.value.available && r.value.entries.Keys == st.entries.Keys + {key}
    ensures r.Ok? ==> forall k :: k in st.entries && k != key ==> r.value.entries[k] == st.entries[k]
    ensures r.Ok? ==> r.value.entries[key] == Entry(value, DeadlineAfter(cfg.timeout + cfg.maxRefresh, now))
  {
    if !st.available then Err(StoreUnavailable)
    else Ok(st.(entries := st.entries[key := Entry(value, DeadlineAfter(Lifetime(cfg), now))]))
  }

  /** What setCache writes is readable for exactly the configured lifetime, whatever
      the key, and no other key's reading changes. */
  lemma SetCacheLifetime(cfg: Config, st: Store, key: string, value: Value, now: int, later: int)
    requires st.available
    ensures SetCache(cfg, st, key, value, now).Ok?
    ensures var st' := SetCache(cfg, st, key, value, now).value;
      && st'.available
      && Lookup(st', key, later)
         == (if Lifetime(cfg) == 0 || later < now + Lifetime(cfg) then Some(value) else None)
      && (forall k :: k != key ==> Lookup(st', k, later) == Lookup(st, k, later))
      && st'.entries.Keys == st.entries.Keys + {key}
  {
  }

  /** A (text, error) pair, as the source's getCache returns. */
  datatype Read = Read(text: string, err: Option<Error>)

  /** getCache after setCache returns the stored text for the configured lifetime
      and the empty text, without error, after it; removeCache makes it "" at once. */
  lemma SetThenGetCache(cfg: Config, st: Store, key: string, value: Value, now: int, later: int)
    requires st.available
    ensures var st' := SetCache(cfg, st, key, value, now).value;
      GetCache(st', key, later)
      == (if Lifetime(cfg) == 0 || later < now + Lifetime(cfg) then Read(Render(value), None) else Read("", None))
    ensures var st' := SetCache(cfg, st, key, value, now).value;
      GetCache(RemoveCache(st', key).value, key, later) == Read("", None)
  {
    SetCacheLifetime(cfg, st, key, value, now, later);
  }


  /** getCache: the cached text, "" for an absent key, ("", error) on a backend fault. */
  function GetCache(st: Store, key: string, now: int): (r: Read)
    ensures !st.available ==> r == Read("", Some(StoreUnavailable))
    ensures st.available ==> r.err == None
    ensures st.available && Lookup(st, key, now).None? ==> r.text == ""
    ensures st.available && Lookup(st, key, now).Some? ==> r.text == Render(Lookup(st, key, now).value)
  {
    if !st.available then Read("", Some(StoreUnavailable))
    else match Lookup(st, key, now)
      case None => Read("", None)
      case Some(v) => Read(Render(v), None)
  }

  /** The backend's own containment test, which can fail. */
  function BackendContains(st: Store, key: string, now: int): Result<bool> {
    if !st.available then Err(StoreUnavailable) else Ok(Lookup(st, key, now).Some?)
  }

  /** contains: the backend's answer with any backend error discarded. */
  function Contains(st: Store, key: string, now: int): (r: bool)
    ensures r <==> BackendContains(st, key, now) == Ok(true)
    ensures r <==> st.available && Lookup(st, key, now).Some?
  {
    match BackendContains(st, key, now)
    case Ok(b) => b
    case Err(_) => false
  }

  /** The backend's removal: the removed value (if any) and the new store. */
  function BackendRemove(st: Store, key: string): Result<(Option<Value>, Store)> {
    if !st.available then Err(StoreUnavailable)
    else if key in st.entries then Ok((Some(st.entries[key].value), st.(entries := st.entries - {key})))
    else Ok((None, st))
  }

  /** removeCache: removes `key`, reporting only the error. */
  function RemoveCache(st: Store, key: string): (r: Result<Store>)
    ensures r.Err? <==> !st.available
    ensures r.Ok? ==> key !in r.value.entries && r.value.entries == st.entries - {key}
    ensures r.Ok? ==> forall now :: Lookup(r.value, key, now).None? && !Contains(r.value, key, now)
  {
    match BackendRemove(st, key)
    case Err(e) => Err(e)
    case Ok((_, st')) => Ok(st')
  }

  /** The backend's updateExpire: gives a live entry a new TTL and keeps its value;
      an absent or dead key is left as it is. */
  function UpdateExpire(st: Store, key: string, ttl: int, now: int): (r: Result<Store>)
    ensures r.Err? <==> !st.available
    ensures r.Ok? ==> r.value.available && r.value.entries.Keys == st.entries.Keys
    ensures r.Ok? ==> forall k :: k in st.entries ==> r.value.entries[k].value == st.entries[k].value
    ensures r.Ok? ==> forall k :: k in st.entries && k != key ==> r.value.entries[k] == st.entries[k]
    ensures r.Ok? && Lookup(st, key, now).Some? ==> r.value.entries[key].deadline == DeadlineAfter(ttl, now)
    ensures r.Ok? && Lookup(st, key, now).None? ==> r.value == st
  {
    if !st.available then Err(StoreUnavailable)
    else if Lookup(st, key, now).Some? then
      Ok(st.(entries := st.entries[key := Entry(st.entries[key].value, DeadlineAfter(ttl, now))]))
    else Ok(st)
  }

  // The per-user session-key list. The code of its helpers is not part of this model;
  // these definitions are modelling assumptions.

  /** getUserKeyCache: the user's session-key list, empty when absent. */
  function GetUserKeyCache(st: Store, key: string, now: int): (r: Result<seq<string>>)
    ensures r.Err? <==> !st.available
    ensures r.Ok? && Lookup(st, key, now).None? ==> r.value == []
    ensures r.Ok? && Lookup(st, key, now).Some? && Lookup(st, key, now).value.Keys? ==> r.value == Lookup(st, key, now).value.list
  {
    if !st.available then Err(StoreUnavailable)
    else match Lookup(st, key, now)
      case None => Ok([])
      case Some(Keys(list)) => Ok(list)
      case Some(Text(s)) => Ok([s])
  }

  /** addUserKeyCache: appends `sessionKey` to the user's list and rewrites the list
      with the configured lifetime. */
  function AddUserKeyCache(cfg: Config, st: Store, key: string, sessionKey: string, now: int): (r: Result<Store>)
    ensures r.Err? <==> !st.available
    ensures r.Ok? ==> r.value.entries
                      == st.entries[key := Entry(Keys(GetUserKeyCache(st, key, now).value + [sessionKey]),
                                                  DeadlineAfter(Lifetime(cfg), now))]
  {
    match GetUserKeyCache(st, key, now)
    case Err(e) => Err(e)
    case Ok(list) => SetCache(cfg, st, key, Keys(list + [sessionKey]), now)
  }

  /** UpdateExpireUserKeyCache: re-applies the configured lifetime to the user's list. */
  function UpdateExpireUserKeyCache(cfg: Config, st: Store, key: string, now: int): (r: Result<Store>)
    ensures r.Err? <==> !st.available
    ensures r.Ok? ==> r.value.entries.Keys == st.entries.Keys
    ensures r.Ok? ==> forall k :: k in st.entries ==> r.value.entries[k].value == st.entries[k].value
    ensures r.Ok? && Lookup(st, key, now).Some? ==>
      r.value.entries[key] == Entry(st.entries[key].value, DeadlineAfter(Lifetime(cfg), now))
    ensures r.Ok? && Lookup(st, key, now).None? ==> r.value == st
  {
    UpdateExpire(st, key, Lifetime(cfg), now)
  }
}

=== FILE: claims.dfy ===
/** Claim types, result codes and the abstract token codec (gftoken/claims.go). */
module Claims {
  import opened Outcomes

  /** Caller-defined data carried in a token; opaque to the engine. */
  type Payload = string

  /** The subject of a token: `userKey` identifies the end user, `data` is opaque. */
  datatype User = User(userKey: string, data: Payload)

  /** The claims the engine puts in a token. Of the registered JWT claims only the
      two time bounds are ever set; the others stay at their zero values. */
  datatype CustomClaims = CustomClaims(user: User, notBefore: int, expiresAt: int)

  const JwtTokenOK: int := 200100
  const JwtTokenInvalid: int := -400100
  const JwtTokenExpired: int := -400101
  const JwtTokenFormatErrCode: int := -400102

  /** The token codec: `sign` fails with None, `parse` rejects with None.
      Parsing checks structure and signature only, never the time bounds. */
  datatype Codec = Codec(sign: CustomClaims -> Option<string>, parse: string -> Option<CustomClaims>)

  /** Every signed token parses back to the claims it was signed from. */
  ghost predicate RoundTrips(codec: Codec) {
    forall c :: codec.sign(c).Some? ==> codec.parse(codec.sign(c).value) == Some(c)
  }

  /** A signed token is never the empty string (which the cache reads as "absent"). */
  ghost predicate SignsNonEmpty(codec: Codec) {
    forall c :: codec.sign(c).Some? ==> codec.sign(c).value != []
  }

  /** Signing never fails. */
  ghost predicate AlwaysSigns(codec: Codec) {
    forall c :: codec.sign(c).Some?
  }

  /** A round-tripping codec gives different claims different token strings. */
  lemma DistinctClaimsDistinctTokens(codec: Codec, c1: CustomClaims, c2: CustomClaims)
    requires RoundTrips(codec)
    requires codec.sign(c1).Some? && codec.sign(c2).Some?
    ensures codec.sign(c1).value == codec.sign(c2).value <==> c1 == c2
  {
    if codec.sign(c1).value == codec.sign(c2).value {
      assert codec.parse(codec.sign(c1).value) == Some(c1);
      assert codec.parse(codec.sign(c2).value) == Some(c2);
    }
  }
}

=== FILE: gftoken.dfy ===
/** The token lifecycle engine (gftoken/gftoken.go): issuing, validating with lazy
    refresh, and the multi-login window. The clock is the parameter `now` (Unix
    seconds), the codec and the cache store are explicit parameters. */
module GfToken {
  import opened Outcomes
  import opened Claims
  import opened Options
  import opened Cache

  /** Seconds of clock skew tolerated before a token becomes valid. */
  const NotBeforeSkew: int := 10

  /** diedLine: the instant a token issued or refreshed at `now` expires. */
  function DiedLine(cfg: Config, now: int): (t: int)
    ensures t - now == cfg.timeout + cfg.maxRefresh
    ensures cfg.timeout + cfg.maxRefresh > 0 ==> t > now
  {
    now + Lifetime(cfg)
  }

  /** The cache key of a token's session record. */
  function TokenKey(cfg: Config, token: string): string {
    cfg.cacheKey + token
  }

  /** The cache key of a user's session-key list. */
  function UserListKey(cfg: Config, user: User): string {
    cfg.cacheKey + user.userKey
  }

  /** The claims GenerateToken signs. */
  function IssueClaims(cfg: Config, user: User, now: int): (c: CustomClaims)
    ensures c.user == user
    ensures c.notBefore == now - NotBeforeSkew
    ensures c.expiresAt == now + cfg.timeout + cfg.maxRefresh
  {
    CustomClaims(user, now - NotBeforeSkew, DiedLine(cfg, now))
  }

  /** The outcome of GenerateToken, shaped like the source's named results: the
      token (empty when signing failed), the error if any, and the new store. */
  datatype Issue = Issue(token: string, err: Option<Error>, store: Store)

  /** GenerateToken: signs fresh claims for `user`, writes the session record and,
      with the multi-login limit on, appends the record's key to the user's list.
      A store failure after signing still returns the signed token with the error. */
  function GenerateToken(cfg: Config, codec: Codec, st: Store, user: User, now: int): (r: Issue)
    // a signing failure is reported and nothing is written
    ensures codec.sign(IssueClaims(cfg, user, now)).None? ==> r == Issue("", Some(SigningFailed), st)
    // once signed, the token is returned whatever happens next
    ensures codec.sign(IssueClaims(cfg, user, now)).Some? ==> r.token == codec.sign(IssueClaims(cfg, user, now)).value
    // a backend fault is reported and nothing is written
    ensures !st.available ==> r.err.Some? && r.store == st
    ensures codec.sign(IssueClaims(cfg, user, now)).Some? && !st.available ==> r.err == Some(StoreUnavailable)
    ensures r.err.None? <==> codec.sign(IssueClaims(cfg, user, now)).Some? && st.available
    // without the limit: exactly one record, key+token |-> token
    ensures r.err.None? && cfg.multiLogin <= 0 ==>
      r.store == st.(entries := st.entries[TokenKey(cfg, r.token) :=
                                           Entry(Text(r.token), DeadlineAfter(Lifetime(cfg), now))])
    // with the limit: that record, plus the record's key appended to the user's list
    ensures r.err.None? && cfg.multiLogin > 0 ==>
      var tk := TokenKey(cfg, r.token);
      var uk := UserListKey(cfg, user);
      var st1 := st.(entries := st.entries[tk := Entry(Text(r.token), DeadlineAfter(Lifetime(cfg), now))]);
      r.store.entries == st1.entries[uk := Entry(Keys(GetUserKeyCache(st1, uk, now).value + [tk]),
                                                 DeadlineAfter(Lifetime(cfg), now))]
  {
    match codec.sign(IssueClaims(cfg, user, now))
    case None => Issue("", Some(SigningFailed), st)
    case Some(token) =>
      match SetCache(cfg, st, TokenKey(cfg, token), Text(token), now)
      case Err(e) => Issue(token, Some(e), st)
      case Ok(st1) =>
        if cfg.multiLogin > 0 then
          match AddUserKeyCache(cfg, st1, UserListKey(cfg, user), TokenKey(cfg, token), now)
          case Err(e) => Issue(token, Some(e), st1)
          case Ok(st2) => Issue(token, None, st2)
        else Issue(token, None, st1)
  }

  /** ParseToken: the token's claims; checks format and signature, not expiry. */
  function ParseToken(codec: Codec, token: string): (r: Result<CustomClaims>)
    ensures r.Ok? <==> codec.parse(token).Some?
    ensures r.Ok? ==> codec.parse(token) == Some(r.value)
    ensures r.Err? ==> r.error == ParseTokenFail
  {
    match codec.parse(token)
    case None => Err(ParseTokenFail)
    case Some(c) => Ok(c)
  }

  /** A freshly issued token parses to the claims it was issued with. */
  lemma IssuedTokenParses(cfg: Config, codec: Codec, st: Store, user: User, now: int)
    requires RoundTrips(codec)
    ensures var r := GenerateToken(cfg, codec, st, user, now);
      r.err.None? ==> ParseToken(codec, r.token) == Ok(CustomClaims(user, now - 10, now + cfg.timeout + cfg.maxRefresh))
  {
  }

  /** The verdict of IsNotExpired: the parsed claims (if any) and a result code. */
  datatype Verdict = Verdict(claims: Option<CustomClaims>, code: int)

  /** IsNotExpired: OK while the token's claims are unexpired, Expired after, Invalid
      when the token does not parse. */
  function IsNotExpired(codec: Codec, token: string, now: int): (r: Verdict)
    ensures r.claims == codec.parse(token)
    ensures r.code == JwtTokenOK <==> codec.parse(token).Some? && now < codec.parse(token).value.expiresAt
    ensures r.code == JwtTokenExpired <==> codec.parse(token).Some? && now >= codec.parse(token).value.expiresAt
    ensures r.code == JwtTokenInvalid <==> codec.parse(token).None?
  {
    match codec.parse(token)
    case None => Verdict(None, JwtTokenInvalid)
    case Some(c) => if now - c.expiresAt < 0 then Verdict(Some(c), JwtTokenOK) else Verdict(Some(c), JwtTokenExpired)
  }

  /** IsRefresh: the token lies strictly inside the trailing refresh window. */
  function IsRefresh(cfg: Config, codec: Codec, token: string, now: int): (r: bool)
    ensures cfg.maxRefresh == 0 ==> !r
    ensures r <==> cfg.maxRefresh != 0 && codec.parse(token).Some?
                   && codec.parse(token).value.expiresAt - cfg.maxRefresh < now < codec.parse(token).value.expiresAt
  {
    if cfg.maxRefresh == 0 then false
    else match codec.parse(token)
      case None => false
      case Some(c) => now < c.expiresAt && now > c.expiresAt - cfg.maxRefresh
  }

  /** A token inside its refresh window is still unexpired. */
  lemma RefreshWindowIsUnexpired(cfg: Config, codec: Codec, token: string, now: int)
    ensures IsRefresh(cfg, codec, token, now) ==> IsNotExpired(codec, token, now).code == JwtTokenOK
  {
  }

  /** RefreshToken: re-signs the old token's claims with a new expiry (the codec's
      refresh is modelled as parse, move the expiry, sign). */
  function RefreshToken(cfg: Config, codec: Codec, oldToken: string, now: int): (r: Result<string>)
    ensures codec.parse(oldToken).None? ==> r == Err(ParseTokenFail)
    ensures codec.parse(oldToken).Some? && codec.sign(codec.parse(oldToken).value.(expiresAt := DiedLine(cfg, now))).Some?
            ==> r.Ok?
    ensures codec.parse(oldToken).Some? && codec.sign(codec.parse(oldToken).value.(expiresAt := DiedLine(cfg, now))).None?
            ==> r == Err(SigningFailed)
    ensures r.Ok? ==> codec.parse(oldToken).Some?
                      && codec.sign(codec.parse(oldToken).value.(expiresAt := DiedLine(cfg, now))) == Some(r.value)
  {
    match codec.parse(oldToken)
    case None => Err(ParseTokenFail)
    case Some(c) =>
      match codec.sign(c.(expiresAt := DiedLine(cfg, now)))
      case None => Err(SigningFailed)
      case Some(t) => Ok(t)
  }

  /** A refreshed token carries the old subject and start, and the new expiry, which
      lies beyond the old one whenever the old token was in its refresh window and
      the timeout is not negative. */
  lemma RefreshExtendsExpiry(cfg: Config, codec: Codec, oldToken: string, now: int)
    requires RoundTrips(codec)
    requires RefreshToken(cfg, codec, oldToken, now).Ok?
    ensures var c := codec.parse(oldToken).value;
      var c' := codec.parse(RefreshToken(cfg, codec, oldToken, now).value);
      && c' == Some(c.(expiresAt := now + cfg.timeout + cfg.maxRefresh))
      && (IsRefresh(cfg, codec, oldToken, now) && cfg.timeout >= 0 ==> c'.value.expiresAt > c.expiresAt)
  {
  }

  /** The start of the trailing window of at most `quota` positions ending at `n`. */
  function WindowStart(n: nat, quota: int): (lo: nat)
    ensures lo <= n
  {
    if quota <= 0 then n else if quota >= n then 0 else n - quota
  }

  /** The trailing `quota` entries of a session-key list. */
  function TrailingWindow(list: seq<string>, quota: int): seq<string> {
    list[WindowStart(|list|, quota)..]
  }

  /** The backward scan of checkMultiLogin: examines `list[i]`, `list[i-1]`, ... for
      at most `j` positions and reports whether `key` was seen. */
  function Scan(list: seq<string>, i: int, j: int, key: string): (found: bool)
    requires -1 <= i < |list|
    ensures found <==> key in list[WindowStart(i + 1, j)..i + 1]
    decreases i + 1
  {
    if i < 0 then false
    else if j <= 0 then false
    else if list[i] == key then true
    else
      var rest := Scan(list, i - 1, j - 1, key);
      assert list[WindowStart(i + 1, j)..i + 1] == list[WindowStart(i, j - 1)..i] + [list[i]];
      rest
  }

  /** checkMultiLogin: the presented token's key is among the `multiLogin` most
      recent entries of its user's list. The user comes from the presented token. */
  function CheckMultiLogin(cfg: Config, codec: Codec, st: Store, token: string, now: int): (ok: bool)
    ensures ok <==> codec.parse(token).Some? && st.available
                    && TokenKey(cfg, token) in TrailingWindow(
                         GetUserKeyCache(st, UserListKey(cfg, codec.parse(token).value.user), now).value,
                         cfg.multiLogin)
  {
    match ParseToken(codec, token)
    case Err(_) => false
    case Ok(c) =>
      match GetUserKeyCache(st, UserListKey(cfg, c.user), now)
      case Err(_) => false
      case Ok(list) => Scan(list, |list| - 1, cfg.multiLogin, TokenKey(cfg, token))
  }

  /** With distinct keys, exactly the last `quota` issued keys pass the scan. */
  lemma {:induction false} MultiLoginLastIssued(list: seq<string>, quota: int, k: nat)
    requires forall a, b :: 0 <= a < b < |list| ==> list[a] != list[b]
    requires k < |list|
    ensures list[k] in TrailingWindow(list, quota) <==> quota > 0 && k >= |list| - quota
  {
    var lo := WindowStart(|list|, quota);
    if list[k] in list[lo..] {
      var m :| lo <= m < |list| && list[m] == list[k];
      assert list[m] == list[lo..][m - lo];
      assert m == k;
    }
  }

  /** The validity predicate IsEffective decides, stated on the store and the codec:
      a non-empty live record, the multi-login window (when enabled), and unexpired
      cached claims. */
  predicate Accepted(cfg: Config, codec: Codec, st: Store, token: string, now: int) {
    var cached := Lookup(st, TokenKey(cfg, token), now);
    && st.available
    && cached.Some?
    && Render(cached.value) != ""
    && (cfg.multiLogin > 0 ==> CheckMultiLogin(cfg, codec, st, token, now))
    && codec.parse(Render(cached.value)).Some?
    && now < codec.parse(Render(cached.value)).value.expiresAt
  }

  /** The outcome of IsEffective: the verdict and the store after a possible refresh. */
  datatype Check = Check(effective: bool, store: Store)

  /** The refresh step of IsEffective: re-sign the cached token, overwrite the record
      under the PRESENTED token's key, and re-apply the lifetime of the list of the
      cached claims' user. Failures leave the store as it was at that point. */
  function Refresh(cfg: Config, codec: Codec, st: Store, token: string, cached: string,
                   claims: CustomClaims, now: int): (st': Store)
    ensures st'.available == st.available
    ensures st.entries.Keys <= st'.entries.Keys
    ensures TokenKey(cfg, token) in st.entries ==> st'.entries.Keys == st.entries.Keys
    ensures forall k :: k in st.entries && k != TokenKey(cfg, token) ==> st'.entries[k].value == st.entries[k].value
    ensures forall k :: k in st.entries && k != TokenKey(cfg, token) && k != UserListKey(cfg, claims.user)
                        ==> st'.entries[k] == st.entries[k]
  {
    match RefreshToken(cfg, codec, cached, now)
    case Err(_) => st
    case Ok(newToken) =>
      var st1 := match SetCache(cfg, st, TokenKey(cfg, token), Text(newToken), now)
                 case Ok(s) => s
                 case Err(_) => st;
      match UpdateExpireUserKeyCache(cfg, st1, UserListKey(cfg, claims.user), now)
      case Ok(s) => s
      case Err(_) => st1
  }

  /** IsEffective: whether a presented token is currently valid; refreshes it lazily
      when it lies in the refresh window. */
  function IsEffective(cfg: Config, codec: Codec, st: Store, token: string, now: int): (r: Check)
    ensures r.effective <==> Accepted(cfg, codec, st, token, now)
    // a rejection writes or removes nothing; so does a call with refreshing disabled
    ensures !r.effective ==> r.store == st
    ensures cfg.maxRefresh == 0 ==> r.store == st
    // no record appears or disappears; only the presented record's value can change
    ensures r.store.available == st.available && r.store.entries.Keys == st.entries.Keys
    ensures forall k :: k in st.entries && k != TokenKey(cfg, token) ==> r.store.entries[k].value == st.entries[k].value
  {
    var read := GetCache(st, TokenKey(cfg, token), now);
    if read.err.Some? then Check(false, st)
    else if read.text == "" then Check(false, st)
    else if cfg.multiLogin > 0 && !CheckMultiLogin(cfg, codec, st, token, now) then Check(false, st)
    else
      var verdict := IsNotExpired(codec, read.text, now);
      if verdict.code == JwtTokenOK then
        if IsRefresh(cfg, codec, read.text, now) then
          Check(true, Refresh(cfg, codec, st, token, read.text, verdict.claims.value, now))
        else Check(true, st)
      else Check(false, st)
  }
}

=== FILE: lifecycle.dfy ===
/** Properties of the token lifecycle that span several engine calls. */
module Lifecycle {
  import opened Outcomes
  import opened Claims
  import opened Options
  import opened Cache
  import opened GfToken

  /** Prefixing with the same cache key keeps different strings different. */
  lemma {:induction false} PrefixInjective(prefix: string, a: string, b: string)
    ensures prefix + a == prefix + b <==> a == b
  {
    if prefix + a == prefix + b {
      assert (prefix + a)[|prefix|..] == a;
      assert (prefix + b)[|prefix|..] == b;
    }
  }

  /** What a successful GenerateToken leaves in the store when the token differs from
      the user key (so the session record and the user's list use different keys). */
  lemma {:induction false} IssueWrites(cfg: Config, codec: Codec, st: Store, user: User, now: int)
    requires GenerateToken(cfg, codec, st, user, now).err.None?
    requires cfg.multiLogin > 0
    requires GenerateToken(cfg, codec, st, user, now).token != user.userKey
    ensures var r := GenerateToken(cfg, codec, st, user, now);
      var tk := TokenKey(cfg, r.token);
      var uk := UserListKey(cfg, user);
      && tk != uk
      && r.store.available
      && r.store.entries[tk] == Entry(Text(r.token), DeadlineAfter(Lifetime(cfg), now))
      && r.store.entries[uk] == Entry(Keys(GetUserKeyCache(st, uk, now).value + [tk]), DeadlineAfter(Lifetime(cfg), now))
      && (forall k :: k in st.entries && k != tk && k != uk ==> k in r.store.entries && r.store.entries[k] == st.entries[k])
  {
    var r := GenerateToken(cfg, codec, st, user, now);
    var tk := TokenKey(cfg, r.token);
    var uk := UserListKey(cfg, user);
    PrefixInjective(cfg.cacheKey, r.token, user.userKey);
    var st1 := st.(entries := st.entries[tk := Entry(Text(r.token), DeadlineAfter(Lifetime(cfg), now))]);
    assert Lookup(st1, uk, now) == Lookup(st, uk, now);
    assert GetUserKeyCache(st1, uk, now) == GetUserKeyCache(st, uk, now);
  }

  /** A token is effective right after it is issued, for as long as its lifetime
      lasts (with the multi-login limit on, provided the token string differs from
      the user key, which shares the key space). */
  lemma IssueThenEffective(cfg: Config, codec: Codec, st: Store, user: User, now: int, later: int)
    requires RoundTrips(codec) && SignsNonEmpty(codec)
    requires later < now + Lifetime(cfg)
    ensures var r := GenerateToken(cfg, codec, st, user, now);
      r.err.None? && (cfg.multiLogin > 0 ==> r.token != user.userKey)
      ==> IsEffective(cfg, codec, r.store, r.token, later).effective
  {
    var r := GenerateToken(cfg, codec, st, user, now);
    if r.err.None? && (cfg.multiLogin > 0 ==> r.token != user.userKey) {
      var tok := r.token;
      var tk := TokenKey(cfg, tok);
      assert codec.parse(tok) == Some(IssueClaims(cfg, user, now));
      if cfg.multiLogin > 0 {
        IssueWrites(cfg, codec, st, user, now);
        var uk := UserListKey(cfg, user);
        var list := GetUserKeyCache(st, uk, now).value + [tk];
        assert Lookup(r.store, uk, later) == Some(Keys(list));
        assert GetUserKeyCache(r.store, uk, later) == Ok(list);
        assert list[|list| - 1] == tk;
        assert TrailingWindow(list, cfg.multiLogin)[|list| - 1 - WindowStart(|list|, cfg.multiLogin)] == tk;
        assert CheckMultiLogin(cfg, codec, r.store, tok, later);
      }
      assert Lookup(r.store, tk, later) == Some(Text(tok));
      assert Accepted(cfg, codec, r.store, tok, later);
    }
  }

  /** A removed session record makes its token ineffective at once, whatever the
      claims inside it say. */
  lemma RevokeThenNotEffective(cfg: Config, codec: Codec, st: Store, token: string, now: int)
    ensures var r := RemoveCache(st, TokenKey(cfg, token));
      r.Ok? ==> (!IsEffective(cfg, codec, r.value, token, now).effective
                 && IsEffective(cfg, codec, r.value, token, now).store == r.value)
  {
  }

  /** A cached token whose claims have expired, or that does not parse, is rejected
      and left in place for the store's own expiry to remove, even when the store
      still returns it. */
  lemma ExpiredOrInvalidRejected(cfg: Config, codec: Codec, st: Store, token: string, now: int)
    requires Lookup(st, TokenKey(cfg, token), now).Some?
    requires var cached := Render(Lookup(st, TokenKey(cfg, token), now).value);
      codec.parse(cached).None? || codec.parse(cached).value.expiresAt <= now
    ensures IsEffective(cfg, codec, st, token, now) == Check(false, st)
  {
  }

  /** A refresh inside IsEffective rewrites the record under the PRESENTED token's
      key with a re-signed token that expires a full lifetime from now (later than
      before when the timeout is not negative), re-applies the lifetime of the
      list, and changes nothing else: no record appears under the new token and no
      list gains or loses entries. */
  lemma RefreshRewritesPresentedRecord(cfg: Config, codec: Codec, st: Store, token: string, now: int)
    requires RoundTrips(codec)
    requires Accepted(cfg, codec, st, token, now)
    requires IsRefresh(cfg, codec, Render(Lookup(st, TokenKey(cfg, token), now).value), now)
    requires RefreshToken(cfg, codec, Render(Lookup(st, TokenKey(cfg, token), now).value), now).Ok?
    ensures var tk := TokenKey(cfg, token);
      var c0 := codec.parse(Render(Lookup(st, tk, now).value)).value;
      var uk := UserListKey(cfg, c0.user);
      var r := IsEffective(cfg, codec, st, token, now);
      && r.effective
      && r.store.entries.Keys == st.entries.Keys
      && r.store.entries[tk].deadline == DeadlineAfter(Lifetime(cfg), now)
      && r.store.entries[tk].value.Text?
      && codec.parse(r.store.entries[tk].value.s) == Some(c0.(expiresAt := now + cfg.timeout + cfg.maxRefresh))
      && (cfg.timeout >= 0 ==> c0.expiresAt < now + cfg.timeout + cfg.maxRefresh)
      && (uk in st.entries && uk != tk && Lookup(st, uk, now).Some? ==>
            r.store.entries[uk] == Entry(st.entries[uk].value, DeadlineAfter(Lifetime(cfg), now)))
      && (forall k :: k in st.entries && k != tk && k != uk ==> r.store.entries[k] == st.entries[k])
  {
    var tk := TokenKey(cfg, token);
    var cached := Render(Lookup(st, tk, now).value);
    var c0 := codec.parse(cached).value;
    var newToken := RefreshToken(cfg, codec, cached, now).value;
    RefreshExtendsExpiry(cfg, codec, cached, now);
    var st1 := SetCache(cfg, st, tk, Text(newToken), now).value;
    assert Lookup(st1, tk, now).Some? ==> Lookup(st1, tk, now) == Some(Text(newToken));
  }

  /** The worked example with timeout 20 s and refresh window 10 s: a token issued at
      0 expires at 30; presented at 25 it is effective and its record now holds a
      token expiring at 55; so at 31 the ORIGINAL string, whose own claims expired
      at 30, is still effective, because the rewritten record lives under its key. */
  lemma WorkedExample(codec: Codec, st: Store, user: User)
    requires RoundTrips(codec) && SignsNonEmpty(codec) && AlwaysSigns(codec)
    requires st.available
    ensures var cfg := NewGfToken([WithTimeoutAndMaxRefresh(20, 10)]);
      var issued := GenerateToken(cfg, codec, st, user, 0);
      && issued.err.None?
      && codec.parse(issued.token) == Some(CustomClaims(user, -10, 30))
      && var at25 := IsEffective(cfg, codec, issued.store, issued.token, 25);
      && at25.effective
      && var rec := at25.store.entries[TokenKey(cfg, issued.token)];
      && rec.value.Text?
      && codec.parse(rec.value.s) == Some(CustomClaims(user, -10, 55))
      && rec.deadline == At(55)
      && IsEffective(cfg, codec, at25.store, issued.token, 31).effective
  {
    var cfg := NewGfToken([WithTimeoutAndMaxRefresh(20, 10)]);
    assert cfg == Config("defaultGFToken", "defaultGFToken_", 20, 10, 0);
    var issued := GenerateToken(cfg, codec, st, user, 0);
    var tok := issued.token;
    var tk := TokenKey(cfg, tok);
    IssueThenEffective(cfg, codec, st, user, 0, 25);
    assert codec.parse(tok) == Some(CustomClaims(user, -10, 30));
    assert Lookup(issued.store, tk, 25) == Some(Text(tok));
    assert IsRefresh(cfg, codec, tok, 25);
    assert RefreshToken(cfg, codec, tok, 25).Ok?;
    RefreshRewritesPresentedRecord(cfg, codec, issued.store, tok, 25);
    var at25 := IsEffective(cfg, codec, issued.store, tok, 25);
    var rec := at25.store.entries[tk];
    assert Lookup(at25.store, tk, 31) == Some(rec.value);
    assert Accepted(cfg, codec, at25.store, tok, 31);
  }

  /** With a multi-login quota of 2, after three logins of one user at three
      different seconds only the two most recent tokens are effective; the first falls out of the window although
      its record and claims are still live. */
  lemma QuotaTwoKeepsLastTwo(cfg: Config, codec: Codec, st: Store, user: User,
                             t1: int, t2: int, t3: int, later: int)
    requires RoundTrips(codec) && SignsNonEmpty(codec)
    requires cfg.multiLogin == 2
    requires t1 < t2 < t3 <= later < t1 + Lifetime(cfg)
    ensures var r1 := GenerateToken(cfg, codec, st, user, t1);
      var r2 := GenerateToken(cfg, codec, r1.store, user, t2);
      var r3 := GenerateToken(cfg, codec, r2.store, user, t3);
      (&& r1.err.None? && r2.err.None? && r3.err.None?
       && r1.token != user.userKey
       && r2.token != user.userKey
       && r3.token != user.userKey)
      ==> (&& !IsEffective(cfg, codec, r3.store, r1.token, later).effective
           && IsEffective(cfg, codec, r3.store, r2.token, later).effective
           && IsEffective(cfg, codec, r3.store, r3.token, later).effective)
  {
    var r1 := GenerateToken(cfg, codec, st, user, t1);
    var r2 := GenerateToken(cfg, codec, r1.store, user, t2);
    var r3 := GenerateToken(cfg, codec, r2.store, user, t3);
    if && r1.err.None? && r2.err.None? && r3.err.None?
       && r1.token != user.userKey
       && r2.token != user.userKey
       && r3.token != user.userKey
    {
      var T1, T2, T3 := r1.token, r2.token, r3.token;
      var k1, k2, k3 := TokenKey(cfg, T1), TokenKey(cfg, T2), TokenKey(cfg, T3);
      var uk := UserListKey(cfg, user);
      var c1, c2, c3 := IssueClaims(cfg, user, t1), IssueClaims(cfg, user, t2), IssueClaims(cfg, user, t3);
      assert codec.parse(T1) == Some(c1) && codec.parse(T2) == Some(c2) && codec.parse(T3) == Some(c3);
      DistinctClaimsDistinctTokens(codec, c1, c2);
      DistinctClaimsDistinctTokens(codec, c1, c3);
      DistinctClaimsDistinctTokens(codec, c2, c3);
      PrefixInjective(cfg.cacheKey, T1, T2);
      PrefixInjective(cfg.cacheKey, T1, T3);
      PrefixInjective(cfg.cacheKey, T2, T3);
      IssueWrites(cfg, codec, st, user, t1);
      IssueWrites(cfg, codec, r1.store, user, t2);
      IssueWrites(cfg, codec, r2.store, user, t3);
      var d1, d2, d3 := DeadlineAfter(Lifetime(cfg), t1), DeadlineAfter(Lifetime(cfg), t2), DeadlineAfter(Lifetime(cfg), t3);
      // the user's list grows by one key per login
      var p0 := GetUserKeyCache(st, uk, t1).value;
      assert r1.store.entries[uk] == Entry(Keys(p0 + [k1]), d1);
      assert GetUserKeyCache(r1.store, uk, t2).value == p0 + [k1];
      assert r2.store.entries[uk] == Entry(Keys(p0 + [k1] + [k2]), d2);
      assert GetUserKeyCache(r2.store, uk, t3).value == p0 + [k1] + [k2];
      var list := p0 + [k1] + [k2] + [k3];
      assert r3.store.entries[uk] == Entry(Keys(list), d3);
      assert GetUserKeyCache(r3.store, uk, later) == Ok(list);
      // the trailing window of two holds exactly the last two keys
      var n := |list|;
      assert WindowStart(n, 2) == n - 2;
      assert TrailingWindow(list, 2) == [k2, k3];
      // the session records of all three tokens are still live
      assert r3.store.entries[k1] == Entry(Text(T1), d1);
      assert r3.store.entries[k2] == Entry(Text(T2), d2);
      assert Lookup(r3.store, k2, later) == Some(Text(T2));
      assert Lookup(r3.store, k3, later) == Some(Text(T3));
      assert !CheckMultiLogin(cfg, codec, r3.store, T1, later);
      assert CheckMultiLogin(cfg, codec, r3.store, T2, later);
      assert CheckMultiLogin(cfg, codec, r3.store, T3, later);
      assert Accepted(cfg, codec, r3.store, T2, later);
      assert Accepted(cfg, codec, r3.store, T3, later);
    }
  }

  /** The record of `token` holds a token whose claims parse, and the record lives at
      least as long as those claims: the engine writes both with the same lifetime. */
  ghost predicate RecordOutlivesClaims(cfg: Config, codec: Codec, st: Store, token: string) {
    var tk := TokenKey(cfg, token);
    && tk in st.entries
    && codec.parse(Render(st.entries[tk].value)).Some?
    && match st.entries[tk].deadline
       case Never => true
       case At(d) => codec.parse(Render(st.entries[tk].value)).value.expiresAt <= d
  }

  /** The expiry of the claims held in `token`'s record. */
  ghost function CachedExpiry(cfg: Config, codec: Codec, st: Store, token: string): int
    requires RecordOutlivesClaims(cfg, codec, st, token)
  {
    codec.parse(Render(st.entries[TokenKey(cfg, token)].value)).value.expiresAt
  }

  /** One accepted presentation keeps the record outliving its claims and never
      moves the cached expiry back (for a non-negative timeout). */
  lemma {:induction false} PresentOnce(cfg: Config, codec: Codec, st: Store, token: string, now: int)
    requires RoundTrips(codec) && SignsNonEmpty(codec)
    requires cfg.timeout >= 0
    requires Accepted(cfg, codec, st, token, now)
    requires RecordOutlivesClaims(cfg, codec, st, token)
    ensures var r := IsEffective(cfg, codec, st, token, now);
      && r.effective
      && RecordOutlivesClaims(cfg, codec, r.store, token)
      && CachedExpiry(cfg, codec, r.store, token) >= CachedExpiry(cfg, codec, st, token)
      && (r.store != st ==>
            && CachedExpiry(cfg, codec, r.store, token) == now + Lifetime(cfg)
            && CachedExpiry(cfg, codec, st, token) < now + Lifetime(cfg)
            && Render(r.store.entries[TokenKey(cfg, token)].value) != []
            && (forall k :: k in st.entries && k != TokenKey(cfg, token)
                  && k != UserListKey(cfg, codec.parse(Render(st.entries[TokenKey(cfg, token)].value)).value.user)
                  ==> r.store.entries[k] == st.entries[k])
            && (forall k :: k in st.entries && k != TokenKey(cfg, token) && Lookup(st, k, now).Some? ==>
                  r.store.entries[k] == st.entries[k]
                  || r.store.entries[k] == Entry(st.entries[k].value, DeadlineAfter(Lifetime(cfg), now))))
  {
    var tk := TokenKey(cfg, token);
    var cached := Render(Lookup(st, tk, now).value);
    var r := IsEffective(cfg, codec, st, token, now);
    if r.store != st {
      assert IsRefresh(cfg, codec, cached, now);
      assert RefreshToken(cfg, codec, cached, now).Ok?;
      RefreshRewritesPresentedRecord(cfg, codec, st, token, now);
      var newToken := RefreshToken(cfg, codec, cached, now).value;
      assert r.store.entries[tk].value == Text(newToken);
    }
  }

  /** Presenting the same token twice within the lifetime of its cached claims is
      effective both times, and the cached expiry never goes down. With the
      multi-login limit on, the user's list must still be live at the second call
      and be stored apart from the token's record; the calls leave its contents
      alone. */
  lemma RepeatedPresentationStaysEffective(cfg: Config, codec: Codec, st: Store, token: string, t1: int, t2: int)
    requires RoundTrips(codec) && SignsNonEmpty(codec)
    requires cfg.timeout >= 0
    requires Accepted(cfg, codec, st, token, t1)
    requires RecordOutlivesClaims(cfg, codec, st, token)
    requires t1 <= t2 < CachedExpiry(cfg, codec, st, token)
    requires cfg.multiLogin > 0 ==>
      && TokenKey(cfg, token) != UserListKey(cfg, codec.parse(token).value.user)
      && Lookup(st, UserListKey(cfg, codec.parse(token).value.user), t2).Some?
    ensures var r1 := IsEffective(cfg, codec, st, token, t1);
      var r2 := IsEffective(cfg, codec, r1.store, token, t2);
      && r1.effective
      && r2.effective
      && RecordOutlivesClaims(cfg, codec, r1.store, token)
      && RecordOutlivesClaims(cfg, codec, r2.store, token)
      && CachedExpiry(cfg, codec, st, token) <= CachedExpiry(cfg, codec, r1.store, token)
      && CachedExpiry(cfg, codec, r1.store, token) <= CachedExpiry(cfg, codec, r2.store, token)
  {
    var tk := TokenKey(cfg, token);
    var r1 := IsEffective(cfg, codec, st, token, t1);
    PresentOnce(cfg, codec, st, token, t1);
    var e1 := r1.store.entries[tk];
    // the record is still live and unexpired at t2
    if r1.store == st {
      assert Lookup(r1.store, tk, t2) == Some(e1.value);
      assert Render(e1.value) == Render(Lookup(st, tk, t1).value);
    } else {
      assert Lookup(r1.store, tk, t2) == Some(e1.value);
    }
    if cfg.multiLogin > 0 {
      var uk := UserListKey(cfg, codec.parse(token).value.user);
      assert uk in st.entries;
      assert r1.store.entries[uk].value == st.entries[uk].value;
      assert Lookup(r1.store, uk, t2) == Lookup(st, uk, t1);
      assert GetUserKeyCache(r1.store, uk, t2) == GetUserKeyCache(st, uk, t1);
      assert CheckMultiLogin(cfg, codec, r1.store, token, t2);
    }
    assert Accepted(cfg, codec, r1.store, token, t2);
    PresentOnce(cfg, codec, r1.store, token, t2);
  }

  /** Issuing establishes the invariant the repeated-presentation property rests on:
      the new record lives exactly as long as the claims it holds. */
  lemma IssueEstablishesRecordOutlives(cfg: Config, codec: Codec, st: Store, user: User, now: int)
    requires RoundTrips(codec)
    ensures var r := GenerateToken(cfg, codec, st, user, now);
      r.err.None? && (cfg.multiLogin > 0 ==> r.token != user.userKey)
      ==> && RecordOutlivesClaims(cfg, codec, r.store, r.token)
          && CachedExpiry(cfg, codec, r.store, r.token) == now + Lifetime(cfg)
  {
    var r := GenerateToken(cfg, codec, st, user, now);
    if r.err.None? && cfg.multiLogin > 0 && r.token != user.userKey {
      IssueWrites(cfg, codec, st, user, now);
    }
  }
}

=== FILE: middleware.dfy ===
/** The exclusion-path matcher of the authentication middleware
    (AuthPath in gftoken/middleware.go). Strings are sequences of characters; the
    source works on bytes, which changes nothing here because only the slash and
    star characters are inspected. */
module Middleware {

  predicate HasSuffix(s: string, suffix: string) {
    |suffix| <= |s| && s[|s| - |suffix|..] == suffix
  }

  predicate HasPrefix(s: string, prefix: string) {
    |prefix| <= |s| && s[..|prefix|] == prefix
  }

  /** Drops one trailing '/', if there is one. */
  function TrimSlash(s: string): (t: string)
    ensures HasSuffix(s, "/") ==> t + "/" == s
    ensures !HasSuffix(s, "/") ==> t == s
  {
    if HasSuffix(s, "/") then s[..|s| - 1] else s
  }

  /** Whether one exclude entry exempts an (already trimmed) request path: an entry
      ending in the wildcard suffix (slash, star) exempts every path starting with the
      entry minus that suffix; any other entry exempts the path equal to it after one
      trailing '/' is trimmed. */
  predicate Exempts(entry: string, path: string) {
    if HasSuffix(entry, "/*") then HasPrefix(path, entry[..|entry| - 2])
    else path == TrimSlash(entry)
  }

  /** The loop over the exclude entries: false at the first entry that exempts `path`. */
  function AuthFrom(excludePaths: seq<string>, path: string): (r: bool)
    ensures r <==> forall e :: e in excludePaths ==> !Exempts(e, path)
    decreases |excludePaths|
  {
    if excludePaths == [] then true
    else if Exempts(excludePaths[0], path) then false
    else
      var rest := AuthFrom(excludePaths[1..], path);
      assert forall e :: e in excludePaths <==> e == excludePaths[0] || e in excludePaths[1..];
      rest
  }

  /** AuthPath: whether `urlPath` needs authentication, i.e. no exclude entry exempts
      it once one trailing '/' is trimmed. */
  function AuthPath(excludePaths: seq<string>, urlPath: string): (r: bool)
    ensures r <==> forall e :: e in excludePaths ==> !Exempts(e, TrimSlash(urlPath))
    ensures excludePaths == [] ==> r
  {
    AuthFrom(excludePaths, TrimSlash(urlPath))
  }

  /** A path and the same path with one '/' appended are judged alike. */
  lemma TrailingSlashIgnored(excludePaths: seq<string>, p: string)
    requires !HasSuffix(p, "/")
    ensures AuthPath(excludePaths, p + "/") == AuthPath(excludePaths, p)
  {
    assert HasSuffix(p + "/", "/");
    assert (p + "/")[..|p + "/"| - 1] == p;
  }

  /** Only one '/' is trimmed: "/a//" is not judged like "/a". */
  lemma DoubleSlashNotIgnored()
    ensures AuthPath(["/a"], "/a") != AuthPath(["/a"], "/a" + "//")
  {
    assert !HasSuffix("/a", "/*");
    assert !HasSuffix("/a", "/");
    assert Exempts("/a", TrimSlash("/a"));
    assert TrimSlash("/a//") == "/a/";
    assert !Exempts("/a", "/a/");
  }

  /** A wildcard entry exempts exactly the paths whose trimmed form starts with
      the entry's stem. */
  lemma WildcardEntryExemptsPrefixes(stem: string, urlPath: string)
    ensures !AuthPath([stem + "/*"], urlPath) <==> HasPrefix(TrimSlash(urlPath), stem)
  {
    var e := stem + "/*";
    assert HasSuffix(e, "/*");
    assert e[..|e| - 2] == stem;
  }

  /** In particular a wildcard entry exempts every extension of its stem (unless the
      extension is empty and the stem itself ends in '/', which trimming removes). */
  lemma WildcardExemptsExtensions(excludePaths: seq<string>, stem: string, rest: string)
    requires stem + "/*" in excludePaths
    requires rest != [] || !HasSuffix(stem, "/")
    ensures !AuthPath(excludePaths, stem + rest)
  {
    var e := stem + "/*";
    var p := stem + rest;
    assert HasSuffix(e, "/*");
    assert e[..|e| - 2] == stem;
    if HasSuffix(p, "/") {
      assert rest != [];
      assert TrimSlash(p) == stem + rest[..|rest| - 1];
      assert (stem + rest[..|rest| - 1])[..|stem|] == stem;
    } else {
      assert p[..|stem|] == stem;
    }
    assert Exempts(e, TrimSlash(p));
  }

  /** The bare wildcard entry (slash, star) exempts every path. */
  lemma RootWildcardExemptsAll(excludePaths: seq<string>, urlPath: string)
    requires "/*" in excludePaths
    ensures !AuthPath(excludePaths, urlPath)
  {
    assert HasSuffix("/*", "/*");
    assert Exempts("/*", TrimSlash(urlPath));
  }

  /** An entry without the wildcard exempts exactly the paths equal to it after one
      trailing '/' is trimmed from both. */
  lemma ExactEntryExemptsOnlyItself(entry: string, urlPath: string)
    requires !HasSuffix(entry, "/*")
    ensures !AuthPath([entry], urlPath) <==> TrimSlash(urlPath) == TrimSlash(entry)
  {
  }

  /** The verdict depends only on which entries are present, not on their order. */
  lemma AuthPathOrderIndependent(ex1: seq<string>, ex2: seq<string>, urlPath: string)
    requires forall e :: e in ex1 <==> e in ex2
    ensures AuthPath(ex1, urlPath) == AuthPath(ex2, urlPath)
  {
  }

  /** Adding an exclude entry can lift the authentication requirement, never impose it. */
  lemma AuthPathMonotone(excludePaths: seq<string>, extra: string, urlPath: string)
    ensures AuthPath(excludePaths + [extra], urlPath) ==> AuthPath(excludePaths, urlPath)
    ensures !AuthPath(excludePaths, urlPath) ==> !AuthPath([extra] + excludePaths, urlPath)
  {
    assert forall e :: e in excludePaths ==> e in excludePaths + [extra];
  }
}

=== FILE: options.dfy ===
/** Engine configuration: defaults plus functional options applied left to right
    (gftoken/options.go). */
module Options {

  /** The scalar settings of an engine instance. Times are in seconds. */
  datatype Config = Config(
    serverName: string,
    cacheKey: string,     // prefix of every cache key; must differ between instances
    timeout: int,
    maxRefresh: int,      // 0 disables refreshing
    multiLogin: int       // 0 (or less) disables the multi-login limit
  )

  const DefaultConfig: Config := Config(
    "defaultGFToken",
    "defaultGFToken_",
    60 * 60 * 24 * 10,
    60 * 60 * 24 * 5,
    0)

  /** One functional option, as returned by the `With...` constructors. */
  datatype OptionFunc =
    | WithServerName(name: string)
    | WithCacheKey(key: string)
    | WithTimeoutAndMaxRefresh(timeout: int, maxRefresh: int)
    | WithTimeout(timeout: int)
    | WithMaxRefresh(maxRefresh: int)
    | WithMultiLogin(num: int)

  /** The fields of a Config, named so that lemmas can quantify over them. */
  datatype Field = ServerName | CacheKey | Timeout | MaxRefresh | MultiLogin

  datatype FieldValue = Str(s: string) | Num(n: int)

  function Get(cfg: Config, f: Field): FieldValue {
    match f
    case ServerName => Str(cfg.serverName)
    case CacheKey => Str(cfg.cacheKey)
    case Timeout => Num(cfg.timeout)
    case MaxRefresh => Num(cfg.maxRefresh)
    case MultiLogin => Num(cfg.multiLogin)
  }

  /** The fields an option writes. */
  function Touches(o: OptionFunc): set<Field> {
    match o
    case WithServerName(_) => {ServerName}
    case WithCacheKey(_) => {CacheKey}
    case WithTimeoutAndMaxRefresh(_, _) => {Timeout, MaxRefresh}
    case WithTimeout(_) => {Timeout}
    case WithMaxRefresh(_) => {MaxRefresh}
    case WithMultiLogin(_) => {MultiLogin}
  }

  /** The value an option writes into field `f` (meaningful for `f in Touches(o)`). */
  function Written(o: OptionFunc, f: Field): FieldValue {
    match o
    case WithServerName(v) => Str(v)
    case WithCacheKey(v) => Str(v)
    case WithTimeoutAndMaxRefresh(t, r) => if f == Timeout then Num(t) else Num(r)
    case WithTimeout(v) => Num(v)
    case WithMaxRefresh(v) => Num(v)
    case WithMultiLogin(v) => Num(v)
  }

  /** Runs one option on a configuration. */
  function Apply(cfg: Config, o: OptionFunc): (r: Config)
    ensures forall f :: f in Touches(o) ==> Get(r, f) == Written(o, f)
    ensures forall f :: f !in Touches(o) ==> Get(r, f) == Get(cfg, f)
  {
    match o
    case WithServerName(v) => cfg.(serverName := v)
    case WithCacheKey(v) => cfg.(cacheKey := v)
    case WithTimeoutAndMaxRefresh(t, m) => cfg.(timeout := t, maxRefresh := m)
    case WithTimeout(v) => cfg.(timeout := v)
    case WithMaxRefresh(v) => cfg.(maxRefresh := v)
    case WithMultiLogin(v) => cfg.(multiLogin := v)
  }

  /** No option in `opts` writes field `f`. */
  predicate Untouched(opts: seq<OptionFunc>, f: Field) {
    forall i :: 0 <= i < |opts| ==> f !in Touches(opts[i])
  }

  /** Runs the options on `cfg` from first to last. */
  function ApplyAll(cfg: Config, opts: seq<OptionFunc>): (r: Config)
    ensures forall f :: Untouched(opts, f) ==> Get(r, f) == Get(cfg, f)
    decreases |opts|
  {
    if opts == [] then cfg else ApplyAll(Apply(cfg, opts[0]), opts[1..])
  }

  /** NewGfToken: a copy of the defaults with the options applied in order, so every
      field holds the value of the last option that writes it, or its default. */
  function NewGfToken(opts: seq<OptionFunc>): (r: Config)
    ensures forall f :: Get(r, f) == LastWritten(DefaultConfig, opts, f)
  {
    LaterOptionWinsAll(DefaultConfig, opts);
    ApplyAll(DefaultConfig, opts)
  }

  /** Without options the engine gets the documented defaults. */
  lemma NewGfTokenDefaults()
    ensures NewGfToken([]) == Config("defaultGFToken", "defaultGFToken_", 864000, 432000, 0)
  {
  }

  /** Applying a list with one more option at the end is applying that option last. */
  lemma {:induction false} ApplyAllSnoc(cfg: Config, opts: seq<OptionFunc>, o: OptionFunc)
    ensures ApplyAll(cfg, opts + [o]) == Apply(ApplyAll(cfg, opts), o)
    decreases |opts|
  {
    if opts == [] {
      assert opts + [o] == [o];
      assert ApplyAll(cfg, [o]) == ApplyAll(Apply(cfg, o), []);
    } else {
      assert (opts + [o])[0] == opts[0];
      assert (opts + [o])[1..] == opts[1..] + [o];
      ApplyAllSnoc(Apply(cfg, opts[0]), opts[1..], o);
    }
  }

  /** Reference definition: a field holds the value written by the LAST option that
      touches it, or the starting value when no option touches it. */
  function LastWritten(cfg: Config, opts: seq<OptionFunc>, f: Field): FieldValue
    decreases |opts|
  {
    if opts == [] then Get(cfg, f)
    else if f in Touches(opts[|opts| - 1]) then Written(opts[|opts| - 1], f)
    else LastWritten(cfg, opts[..|opts| - 1], f)
  }

  /** Options run left to right, so when two options set the same field the later wins. */
  lemma {:induction false} LaterOptionWins(cfg: Config, opts: seq<OptionFunc>, f: Field)
    ensures Get(ApplyAll(cfg, opts), f) == LastWritten(cfg, opts, f)
    decreases |opts|
  {
    if opts != [] {
      var init, last := opts[..|opts| - 1], opts[|opts| - 1];
      assert opts == init + [last];
      ApplyAllSnoc(cfg, init, last);
      LaterOptionWins(cfg, init, f);
    }
  }

  lemma LaterOptionWinsAll(cfg: Config, opts: seq<OptionFunc>)
    ensures forall f :: Get(ApplyAll(cfg, opts), f) == LastWritten(cfg, opts, f)
  {
    forall f {
      LaterOptionWins(cfg, opts, f);
    }
  }

  /** The combined option is the two single options in sequence. */
  lemma TimeoutAndMaxRefreshIsBoth(cfg: Config, t: int, m: int)
    ensures Apply(cfg, WithTimeoutAndMaxRefresh(t, m))
         == Apply(Apply(cfg, WithTimeout(t)), WithMaxRefresh(m))
  {
  }
}

=== FILE: outcomes.dfy ===
/** Failure-carrying results shared by the whole model. */
module Outcomes {

  datatype Option<+T> = None | Some(value: T)

  /** The error values the token engine can report. */
  datatype Error =
    | SigningFailed     // the codec could not produce a signed token
    | ParseTokenFail    // a presented string is not a token the codec accepts
    | StoreUnavailable  // the cache backend failed

  datatype Result<+T> = Ok(value: T) | Err(error: Error)
}
